=== FILE: README.md ===
# React Native Appwrite template — auth forms, onboarding pager and Appwrite glue in Dafny

This project models the logic of a React Native (Expo) app template backed by Appwrite:

- the form checks of the four auth screens (sign-up, sign-in, reset password, forgot password). These are the email regular expression `/^[^\s@]+@[^\s@]+\.[^\s@]+$/`, the six-character password minimum, the confirmation check, and the ordered chain of guards in each submit handler, where the first failing guard decides the alert. Each handler is a pure function from the form fields to `Rejected(message)` or `Proceed`;
- the onboarding carousel as a small state machine: `currentPage` over three slides, `goToNextPage`, `isLastPage`, the page indicators and the call-to-action buttons;
- the Appwrite glue in `appwrite.ts`: sign-up, sign-in, `getCurrentUserAndProfile` with its create-if-absent profile step, sign-out, the four owner permission strings and the `equal("userId", [...])` query.

Layout, one module per source file plus shared helpers:

| file | module | models |
|---|---|---|
| optional.dfy | `Optional` | `undefined` as `Option` |
| text.dfy | `Text` | ECMAScript `\s`, `trim()`, `length` in UTF-16 code units |
| email.dfy | `Email` | `validateEmail` |
| validation.dfy | `Validation` | `validatePassword`, the alert texts, the first-failure chain |
| sign_up.dfy, sign_in.dfy, reset_password.dfy, forgot_password.dfy | `SignUpScreen`, `SignInScreen`, `ResetPasswordScreen`, `ForgotPasswordScreen` | the submit handlers and screen states |
| onboarding.dfy | `Onboarding` | the carousel |
| access.dfy | `Access` | permission and query strings, each with a parser |
| appwrite.dfy | `Appwrite` | the gateway operations over an abstract service state |

Modelling choices:

- **One email rule.** The three screens each declare an identical `validateEmail` with the same regular expression. The model defines it once (`Email.ValidateEmail`), and all three handlers use it. `ValidateEmail` is the regular expression's meaning: some '@' and some later '.' split the string into three non-empty runs of `[^\s@]`. Because `^` and `$` are used without the `m` flag, the runs must cover the whole string.
- **Whitespace.** `Text.IsWhitespace` is the ECMA-262 WhiteSpace and LineTerminator code points, with the space separators (general category Zs) written out as one Unicode version lists them. `\s` and `trim()` both use this set.
- **Length.** `.length` counts UTF-16 code units (`Text.Utf16Length`), so a supplementary character (an emoji, say) counts twice. The UTF-16 view does not change what the regular expression accepts: the two halves of a surrogate pair are neither whitespace, '@' nor '.'.
- **Submission.** `Proceed` stands for what happens after the guards: the loading flag, the 1.5-second timer, then navigation to `/(tabs)` (sign-up, sign-in), `passwordReset = true` (reset) or `emailSent = true` (forgot). The model treats this as one atomic step. The sign-up and sign-in screens only simulate the call and never reach `appwrite.ts`.
- **The Appwrite SDK.** Every SDK call is a request that the glue issues and a `Reply` that the environment chooses. A reply is either a value or `Thrown(message)`, and `""` stands for an empty or missing `error.message`. The `Service` state logs every request in order. The two `ID.unique()` values are parameters.
- **Assumed server semantics.** `appwrite.ts` itself does not say what a successful call does on the server. The abstract `Service` assumes it: a successful `account.create` appends the account, `createEmailPasswordSession` sets the current session, `deleteSession('current')` clears it, and `createDocument` appends the profile document. The sign-up, sign-in, sign-out and look-up contracts state their effects in these terms. A second assumption sits on top of these, and only in the lemmas about `HonestLookup`: `listDocuments` answers honestly, returning exactly the stored profiles with that `userId` (`Appwrite.Matching`).
- **Sign-up is not transactional.** When `createDocument` (appwrite.ts:51-67) throws after `account.create` and `createEmailPasswordSession` succeeded, the function returns `success: false` but keeps both the new account and the current session (`Appwrite.SignUpLeavesSessionWhenProfileFails`). `getCurrentUserAndProfile` returns `error.message` unchanged, with no fallback text (appwrite.ts:161).
- **Atomic submit.** Each submit handler is one step from the fields to the outcome, including the state change made after the 1.5-second delay.

## Model

| member | source | states |
|---|---|---|
| Text.TrimStart | app/sign-up.tsx:41 | `trim()` at the front: the result is a suffix of the input, everything dropped is whitespace, and the result does not start with whitespace |
| Text.TrimEnd | app/sign-up.tsx:41 | `trim()` at the back: the result is a prefix of the input, everything dropped is whitespace, and the result does not end with whitespace |
| Text.IsWhitespace | app/sign-up.tsx:41 | the characters of `\s` and `trim()`; none of them is '@' or '.', or outside the Basic Multilingual Plane |
| Text.Trim | app/sign-up.tsx:41 | `trim()`: no longer than the input, and neither starting nor ending with whitespace |
| Text.TrimIsMiddleSlice | app/sign-up.tsx:41 | `trim()` is the slice of the input that starts at the first non-whitespace character, with only whitespace before and after it |
| Text.IsBlank | app/sign-up.tsx:41 | `!fullName.trim()`; already decided by the leading whitespace alone |
| Text.BlankIffAllWhitespace | app/sign-up.tsx:41 | `!fullName.trim()` holds exactly when every character of the name is whitespace, including the empty name |
| Text.Utf16Length | app/sign-up.tsx:37 | `.length` lies between the number of characters and twice that number, and equals the number of characters exactly when no character is supplementary |
| Email.ValidateEmail | app/sign-up.tsx:32-34 | the regular expression `/^[^\s@]+@[^\s@]+\.[^\s@]+$/`: some '@' and some later '.' cut the string into three non-empty `[^\s@]` runs; so an accepted address has at least five characters |
| Email.ValidateEmailShape | app/sign-up.tsx:32-34 | the regular expression accepts a string iff it has no whitespace, exactly one '@' (not first), and a '.' that is neither right after the '@' nor last; extra dots are allowed |
| Email.ShapeOfValidEmail | app/sign-up.tsx:33 | every accepted address has no whitespace, exactly one '@' (not first), and a later '.' that is neither right after the '@' nor last |
| Email.ValidEmailFromShape | app/sign-up.tsx:33 | every string of that shape is accepted |
| Email.SplitHasOneAt | app/sign-up.tsx:33 | an accepted address contains exactly one '@', the one at the split |
| Email.SplitHasNoWhitespace | app/sign-up.tsx:33 | an accepted address contains no whitespace character |
| Email.JoinedAddressIsValid | app/sign-up.tsx:33 | every local ++ "@" ++ d1 ++ "." ++ d2 built from three non-empty `[^\s@]` runs is accepted, even when d1 contains dots |
| Email.SplitValidAddress | app/sign-up.tsx:33 | every accepted address is local ++ "@" ++ d1 ++ "." ++ d2 for three such runs; together with the previous row this is an iff |
| Email.MultiLabelDomainAccepted | app/sign-in.tsx:28-30 | "ann@mail.example.com" is accepted (multi-label domain) |
| Email.SecondAtRejected | app/forgot-password.tsx:20-22 | "ann@b@c.com" is rejected |
| Email.SpaceRejected | app/sign-up.tsx:33 | "ann lee@b.com" is rejected |
| Email.DotAfterAtRejected | app/sign-up.tsx:33 | "ann@.com" is rejected |
| Validation.ValidatePassword | app/sign-up.tsx:36-38 | `password.length >= 6` in UTF-16 code units: six characters always pass, and a passing password has at least three characters |
| Validation.ValidatePasswordByCharacters | app/sign-up.tsx:36-38 | six characters always pass; when no character is supplementary, the rule is exactly `|p| >= 6` |
| Validation.ThreeEmojiMeetMinimum | app/reset-password.tsx:23-25 | three emoji are six UTF-16 code units, so they pass the length rule |
| Validation.FirstFailingIndex | app/sign-up.tsx:40-59 | the first failing guard: every earlier guard passes and this one fails, or all guards pass |
| Validation.FirstFailingIndexUnique | app/sign-up.tsx:40-59 | there is only one such index |
| Validation.FirstFailure | app/sign-up.tsx:40-66 | the reference decision for an ordered chain of guards: proceed iff all pass, otherwise the message of a guard that fails with all earlier ones passing |
| Validation.FirstFailureCons | app/sign-up.tsx:41-59 | the reference decision is a chain of early returns: the first guard's message if it fails, otherwise the decision of the remaining guards |
| SignUpScreen.HandleSignUp | app/sign-up.tsx:40-66 | proceeds iff the name is non-blank, the email valid, the password at least 6 code units and equal to its confirmation; a blank name always gets "Please enter your full name"; any alert is one of the four texts |
| SignUpScreen.HandleSignUpIsFirstFailure | app/sign-up.tsx:41-59 | the handler is the first-failure decision over name, email, length, confirmation in that order |
| SignUpScreen.WhitespaceNameRejected | app/sign-up.tsx:41-44 | an all-whitespace name is rejected with the name message whatever the other fields hold |
| SignUpScreen.ConfirmationDecidesLast | app/sign-up.tsx:56-66 | once the first three guards pass, equal fields proceed and unequal ones get "Passwords do not match" |
| SignInScreen.HandleSignIn | app/sign-in.tsx:32-49 | proceeds iff the email is valid and the password is at least 6 code units; an invalid email gets the email message even when the password is short; a valid email with a short password gets the length message |
| SignInScreen.HandleSignInIsFirstFailure | app/sign-in.tsx:33-41 | the handler is the first-failure decision over email, then length; there is no name or confirmation guard |
| ResetPasswordScreen.HandleResetPassword | app/reset-password.tsx:27-44 | length before match; proceeds iff length ≥ 6 and both fields are equal; `passwordReset` becomes true only by proceeding; the fields are untouched |
| ResetPasswordScreen.HandleResetIsFirstFailure | app/reset-password.tsx:28-36 | the handler is the first-failure decision over length, then match |
| ResetPasswordScreen.LengthRequirementMet | app/reset-password.tsx:184-188 | the "At least 6 characters" line is green exactly when the handler's length guard passes |
| ResetPasswordScreen.MatchRequirementMet | app/reset-password.tsx:189-193 | the "Passwords match" line is green exactly for equal, non-empty fields, and once the length line is green it is exactly the match guard |
| ResetPasswordScreen.ResetProceedsIffRequirementsMet | app/reset-password.tsx:184-195 | submitting proceeds exactly when both requirement lines ("At least 6 characters", "Passwords match") are green |
| ResetPasswordScreen.ResetOnlyWhenValid | app/reset-password.tsx:27-43 | from the form, `passwordReset` turns true only with a long enough, confirmed password |
| ResetPasswordScreen.ShortMatchingPasswordGetsLengthMessage | app/reset-password.tsx:28-31 | a short password gets the length message even when both fields match |
| ForgotPasswordScreen.HandleSendResetLink | app/forgot-password.tsx:24-36 | an invalid email gets the email message and the state is unchanged; a valid one sets `emailSent`; the email is never changed |
| ForgotPasswordScreen.HandleResendEmail | app/forgot-password.tsx:38-41 | resend clears `emailSent` and re-runs the send handler on the same email, so the sent view is kept iff the email is valid |
| ForgotPasswordScreen.EditEmail | app/forgot-password.tsx:159-164 | typing changes the email only on the form, never in the sent view |
| ForgotPasswordScreen.Step | app/forgot-password.tsx:24-43 | one user action: only typing changes the address, typing never changes the view, and the only way from the form into the sent view is a send of a valid address |
| ForgotPasswordScreen.StepPreservesConsistency | app/forgot-password.tsx:24-43 | every action keeps "sent implies a valid email", and a send of a valid email is the only way into the sent view |
| ForgotPasswordScreen.RunIsConsistent | app/forgot-password.tsx:15-43 | every state reachable from the empty form is consistent |
| ForgotPasswordScreen.ResendStaysSent | app/forgot-password.tsx:38-41 | from any reachable sent view, resend lands in the same sent view |
| Onboarding.GoToNextPage | app/onboarding.tsx:51-60 | increments `currentPage` iff it is below `length - 1`, otherwise changes nothing; keeps the page in range |
| Onboarding.LastPageIsThird | app/onboarding.tsx:16-62 | there are three slides, and `isLastPage` iff `currentPage == 2` |
| Onboarding.IsLastPage | app/onboarding.tsx:62 | on an in-range page, `isLastPage` holds exactly where `goToNextPage` changes nothing |
| Onboarding.ActiveIndicators | app/onboarding.tsx:123-131 | the active indicator set is exactly `{currentPage}` on an in-range page and empty otherwise |
| Onboarding.OneActiveIndicator | app/onboarding.tsx:123-131 | exactly one indicator is active on an in-range page |
| Onboarding.OfferedRoutes | app/onboarding.tsx:136-158 | "Get Started" (`/sign-up`) and "I already have an account" (`/sign-in`) are offered iff on the last page |
| Onboarding.AdvanceFrom | app/onboarding.tsx:51-60 | n applications of `goToNextPage` from an in-range page reach min(page + n, 2); as written only the inert chevron calls it, so these are presses only of the corrected next control |
| Onboarding.AdvanceFromStart | app/onboarding.tsx:41-62 | from page 0, n applications of `goToNextPage` reach min(n, 2), and the last page iff n ≥ 2 |
| Onboarding.ChevronInertAsWritten | app/onboarding.tsx:107-115 | as written, the chevron is on the last slide only, where pressing it changes nothing |
| Onboarding.ControlsOn | app/onboarding.tsx:107-158 | with the corrected chevron condition, each in-range page shows exactly one way on: the next control or the final buttons |
| Onboarding.NextButtonAdvances | app/onboarding.tsx:51-60 | with the corrected condition, a shown next control moves exactly one slide forward and stays in range |
| Access.Permission | appwrite.ts:62-65 | the permission string `<cap>("user:<id>")`; its partner is `Access.ParsePermission`, and the next three rows relate them |
| Access.OwnerPermissions | appwrite.ts:143-146 | exactly four strings; their capabilities and owner are in `Access.OwnerPermissionsReadBack` |
| Access.UserIdQuery | appwrite.ts:127 | the query string `equal("userId", ["<id>"])`; its partner is `Access.ParseUserIdQuery` |
| Access.OwnerPermissionsReadBack | appwrite.ts:60-66 | the four entries read back as read, write, update and delete on `user:<id>` of the owner, in that order |
| Access.PermissionRoundTrip | appwrite.ts:62-65 | every built permission string reads back as its capability and user id |
| Access.PermissionInjective | appwrite.ts:62-65 | two equal permission strings have the same capability and the same user id |
| Access.OwnerPermissionsDistinct | appwrite.ts:143-146 | the four permissions are distinct and none grants anything to any other user id |
| Access.ParseUserIdQuery | appwrite.ts:127 | a query that parses is exactly the `equal("userId", ["<id>"])` built from the parsed id |
| Access.QueryRoundTrip | appwrite.ts:153 | the built query parses back to its id, so different ids give different queries |
| Appwrite.SignUpWithEmailPassword | appwrite.ts:36-79 | calls in the order create account, create session, create document; the first throw stops later calls; success iff all three succeed; the account list gains the created account exactly when `account.create` succeeds; on success exactly one new profile owned by the created account's id, with the name or '' and the email, plus the new session; on failure no profile and the thrown message or "Sign up failed" |
| Appwrite.ErrorText | appwrite.ts:75 | `error.message || fallback`: the thrown message when it is non-empty, otherwise the fallback, so never empty with a non-empty fallback |
| Appwrite.SignUpLeavesSessionWhenProfileFails | appwrite.ts:45-75 | a document failure after account and session succeed reports failure but leaves the account and session in place |
| Appwrite.SignInWithEmailPassword | appwrite.ts:82-101 | always `deleteSession('current')` then `createEmailPasswordSession`; success iff the second call succeeds, with that session current; failure text is the message or "Sign in failed" |
| Appwrite.SignInIgnoresDeleteOutcome | appwrite.ts:86-93 | the delete call's outcome never changes the sign-in result |
| Appwrite.GetCurrentUserAndProfile | appwrite.ts:118-163 | the calls are a prefix of that script (exactly its first 2, 3 or 4 calls: see the next row); a profile is written iff the account is fetched and the first query returns no documents; both queries are `equal("userId", ["<id>"])` of the fetched account; an existing profile is returned and nothing is written; the create path stores the owned profile built from the account's id, name and email and returns the re-query's first document, or no profile when it is empty; a throw from any of the four calls gives `NoIdentity` with that call's raw message |
| Appwrite.GetCurrentUserAndProfileCalls | appwrite.ts:118-156 | for a fetched account the calls are exactly the first 2, 3 or 4 calls of the script: fetch and first query always; create and second query only after an empty first listing; the second query only after a successful create |
| Appwrite.WritesProfileIffPastFirstQuery | appwrite.ts:130-133 | a run of that script writes a profile exactly when it goes past the first query |
| Appwrite.MatchingAppend | appwrite.ts:150-155 | adding one document to the store adds it to the honest answer of a query iff its `userId` matches |
| Appwrite.HonestLookupFindsProfile | appwrite.ts:130-157 | with honest replies the look-up returns a profile of the user, and creates one (the owned profile) iff the user had none |
| Appwrite.SignUpThenLookupFindsProfile | appwrite.ts:36-163 | after a successful sign-up of an account with no profile, the store holds exactly one profile for that account id, and the next honest look-up returns that very profile and writes nothing |
| Appwrite.SelfHealingIsIdempotent | appwrite.ts:130-157 | with honest replies, a second look-up started after the first has finished creates nothing and returns the same user and profile |
| Appwrite.SignOut | appwrite.ts:166-175 | success iff `deleteSession('current')` succeeds; the session is cleared on success and kept on failure; failure text is the message or "Sign out failed" |
| Appwrite.SignInThenSignOut | appwrite.ts:82-175 | after a successful sign-in, a successful sign-out leaves no session and a failed one keeps the session sign-in created; accounts and profiles are untouched |
| Appwrite.FailureTextsNeverEmpty | appwrite.ts:75 | the failure texts of sign-up, sign-in and sign-out are never empty, and a non-empty thrown message is kept |

## Findings

| source | as written | input that shows it | evidently intended | confidence | as-written member | corrected member |
|---|---|---|---|---|---|---|
| app/onboarding.tsx:107 | the chevron button is rendered only when `index === onboardingData.length - 1`, and it calls `goToNextPage` | on the last slide (`currentPage == 2`) pressing the chevron runs `goToNextPage`, whose guard `2 < 2` fails, so nothing happens; slides 0 and 1 have no chevron | the chevron on every slide but the last (`index !== onboardingData.length - 1`), so that it advances the carousel where the final buttons are not shown | medium; not executed | Onboarding.ChevronInertAsWritten | Onboarding.NextButtonAdvances |

## Left out

- Rendering, styling, icons, gradients, and the display of `Alert.alert`: alerts are the `message` of `Rejected`.
- `expo-router` navigation: it is folded into `Proceed`, plus the route strings of the onboarding buttons.
- The `setTimeout` delays and `isLoading` toggling: each submission is one atomic step.
- `handleScroll` (app/onboarding.tsx:45-49): it sets `currentPage` from `Math.round` of a floating-point scroll offset divided by the screen width. Floating point and `Dimensions` are not modelled, so the pager changes only through `goToNextPage`.
- `initializeAppwriteClient` and the `Client` configuration: these are SDK set-up with no logic of their own. Environment variables appear only as `Config`.
- `ID.unique()`: its values are parameters.
- The server-side meaning of accounts, sessions and documents: replies are chosen by the environment.
- OAuth: `signInWithOAuth` and `getAppwriteOAuthUrl` hand the whole flow to SDK redirects, and the file holds no handshake logic of its own.
- `console.log` and `console.error`: these are I/O.
- app/_layout.tsx, app/index.tsx, hooks/useFrameworkReady.ts and the tab screens: they hold a stack declaration, a fixed redirect, a global hook call and static content.
- Appwrite.SelfHealingIsIdempotent: each gateway operation is modelled as one atomic step on the service, so two calls never interleave. In the program every `await` (appwrite.ts:120, 122, 133, 150) is a suspension point. Two overlapping `getCurrentUserAndProfile` calls can both receive an empty first list and both call `createDocument`, which leaves two profiles for one account. The same limit applies to Appwrite.SignUpThenLookupFindsProfile and Appwrite.HonestLookupFindsProfile: "no duplicate creation" and "exactly one profile" hold only for calls that do not overlap.
- Appwrite.GetCurrentUserAndProfile: `error.message` may be `undefined` there, because there is no fallback. The model uses `""` for both undefined and empty messages, so the two cannot be told apart.
- ForgotPasswordScreen.RunIsConsistent: holds only for atomic submits. The email field has no `editable={!isLoading}` (app/forgot-password.tsx:159-167), and only the button is disabled (line 174). An address typed during the 1.5-second delay (lines 30-35) is what the "Check Your Email" view then shows, and it was never checked. 
- ForgotPasswordScreen.StepPreservesConsistency: holds only for atomic submits. A Type action during the pending send is not modelled, so "sent implies a checked address" can fail in the program for the reason given on the ForgotPasswordScreen.RunIsConsistent line.
- ForgotPasswordScreen.ResendStaysSent: holds only for atomic submits. It relies on the sent view holding a valid address, which the program does not guarantee when the address is edited during the pending send.
- ResetPasswordScreen.ResetOnlyWhenValid: holds only for atomic submits. The two password inputs (app/reset-password.tsx:131, 158) have no `editable={!isLoading}`, and only the button is disabled (line 201). They stay editable while the reset is pending (lines 38-43), so the fields shown when `passwordReset` turns true may differ from the ones that were checked.
- Text.IsWhitespace: ECMA-262 defines its space separators as every code point of general category Zs. The model hard-codes the Zs set of one Unicode version, so a later Unicode version that adds a Zs code point would change what `\s` and `trim()` match without changing the model. Text.Utf16Length assumes the string holds no lone surrogates, since Dafny characters are Unicode scalar values.

=== FILE: access.dfy ===
/** The strings the Appwrite glue builds from a user id: the four document
    permissions of a profile and the `equal` query that finds it. Each builder
    has a parser as its partner, so a built string is shown to determine the id. */
module Access {
  import opened Optional

  datatype Capability = Read | Write | Update | Delete {
    function Name(): string {
      match this
      case Read => "read"
      case Write => "write"
      case Update => "update"
      case Delete => "delete"
    }
  }

  /** `s` is `prefix ++ middle ++ suffix` for some middle. */
  predicate Surrounds(s: string, prefix: string, suffix: string) {
    |prefix| + |suffix| <= |s| && s[..|prefix|] == prefix && s[|s| - |suffix|..] == suffix
  }

  /** The part of `s` between `prefix` and `suffix`, when `s` has that shape. */
  function Between(s: string, prefix: string, suffix: string): (r: Option<string>)
    ensures r.Some? <==> Surrounds(s, prefix, suffix)
    ensures r.Some? ==> s == prefix + r.value + suffix
  {
    if Surrounds(s, prefix, suffix) then
      var middle := s[|prefix|..|s| - |suffix|];
      assert s == s[..|prefix|] + middle + s[|s| - |suffix|..];
      Some(middle)
    else None
  }

  lemma BetweenOfJoin(prefix: string, middle: string, suffix: string)
    ensures Between(prefix + middle + suffix, prefix, suffix) == Some(middle)
  {
    var s := prefix + middle + suffix;
    assert s[..|prefix|] == prefix;
    assert s[|s| - |suffix|..] == suffix;
    assert s[|prefix|..|s| - |suffix|] == middle;
  }

  /** The role string `user:<id>`. */
  function UserRole(userId: string): string {
    "user:" + userId
  }

  function PermissionPrefix(cap: Capability): string {
    cap.Name() + "(\"user:"
  }

  const PermissionSuffix := "\")"

  /** `read("user:<id>")` and its three siblings. */
  function Permission(cap: Capability, userId: string): string {
    cap.Name() + "(\"" + UserRole(userId) + "\")"
  }

  /** The permission list attached to every profile document: read, write,
      update and delete for the owning user only. */
  function OwnerPermissions(userId: string): (r: seq<string>)
    ensures |r| == 4
  {
    [Permission(Read, userId), Permission(Write, userId), Permission(Update, userId), Permission(Delete, userId)]
  }

  /** Each owner permission reads back as its capability, in the order
      read, write, update, delete, and as the owner's id. */
  lemma OwnerPermissionsReadBack(userId: string)
    ensures ParsePermission(OwnerPermissions(userId)[0]) == Some((Read, userId))
    ensures ParsePermission(OwnerPermissions(userId)[1]) == Some((Write, userId))
    ensures ParsePermission(OwnerPermissions(userId)[2]) == Some((Update, userId))
    ensures ParsePermission(OwnerPermissions(userId)[3]) == Some((Delete, userId))
  {
    PermissionRoundTrip(Read, userId);
    PermissionRoundTrip(Write, userId);
    PermissionRoundTrip(Update, userId);
    PermissionRoundTrip(Delete, userId);
  }

  /** Reads a permission string back into its capability and user id. */
  function ParsePermission(s: string): Option<(Capability, string)> {
    if Between(s, PermissionPrefix(Read), PermissionSuffix).Some? then
      Some((Read, Between(s, PermissionPrefix(Read), PermissionSuffix).value))
    else if Between(s, PermissionPrefix(Write), PermissionSuffix).Some? then
      Some((Write, Between(s, PermissionPrefix(Write), PermissionSuffix).value))
    else if Between(s, PermissionPrefix(Update), PermissionSuffix).Some? then
      Some((Update, Between(s, PermissionPrefix(Update), PermissionSuffix).value))
    else if Between(s, PermissionPrefix(Delete), PermissionSuffix).Some? then
      Some((Delete, Between(s, PermissionPrefix(Delete), PermissionSuffix).value))
    else None
  }

  /** A built permission reads back as the capability and user id it was built from. */
  lemma PermissionRoundTrip(cap: Capability, userId: string)
    ensures ParsePermission(Permission(cap, userId)) == Some((cap, userId))
  {
    var s := Permission(cap, userId);
    assert s == PermissionPrefix(cap) + userId + PermissionSuffix;
    BetweenOfJoin(PermissionPrefix(cap), userId, PermissionSuffix);
    if cap != Read {
      assert s[0] != 'r';
    }
    if cap != Write {
      assert s[0] != 'w';
    }
    if cap == Delete {
      assert s[0] != 'u';
    }
  }

  /** A permission string determines its capability and user id. */
  lemma PermissionInjective(cap: Capability, userId: string, cap': Capability, userId': string)
    requires Permission(cap, userId) == Permission(cap', userId')
    ensures cap == cap' && userId == userId'
  {
    PermissionRoundTrip(cap, userId);
    PermissionRoundTrip(cap', userId');
  }

  /** The four owner permissions are four different strings, and none of them
      grants anything to another user. */
  lemma OwnerPermissionsDistinct(userId: string, other: string)
    requires other != userId
    ensures forall j, k | 0 <= j < k < 4 :: OwnerPermissions(userId)[j] != OwnerPermissions(userId)[k]
    ensures forall cap: Capability :: Permission(cap, other) !in OwnerPermissions(userId)
  {
    var r := OwnerPermissions(userId);
    var caps := [Read, Write, Update, Delete];
    assert forall k | 0 <= k < 4 :: r[k] == Permission(caps[k], userId);
    forall j, k | 0 <= j < k < 4
      ensures r[j] != r[k]
    {
      if r[j] == r[k] {
        PermissionInjective(caps[j], userId, caps[k], userId);
      }
    }
    forall cap: Capability, k | 0 <= k < 4
      ensures r[k] != Permission(cap, other)
    {
      if r[k] == Permission(cap, other) {
        PermissionInjective(caps[k], userId, cap, other);
      }
    }
  }

  const QueryPrefix := "equal(\"userId\", [\""
  const QuerySuffix := "\"])"

  /** `equal("userId", ["<id>"])`, the query both profile look-ups send. */
  function UserIdQuery(userId: string): string {
    QueryPrefix + userId + QuerySuffix
  }

  /** Reads the user id back out of a query string of that shape. */
  function ParseUserIdQuery(q: string): (r: Option<string>)
    ensures r.Some? ==> UserIdQuery(r.value) == q
  {
    Between(q, QueryPrefix, QuerySuffix)
  }

  /** A built query reads back as its id, so different ids give different queries. */
  lemma QueryRoundTrip(userId: string, other: string)
    ensures ParseUserIdQuery(UserIdQuery(userId)) == Some(userId)
    ensures other != userId ==> UserIdQuery(other) != UserIdQuery(userId)
  {
    BetweenOfJoin(QueryPrefix, userId, QuerySuffix);
    BetweenOfJoin(QueryPrefix, other, QuerySuffix);
  }
}

=== FILE: appwrite.dfy ===
/** The Appwrite glue: sign-up, sign-in, the profile reconciliation of
    `getCurrentUserAndProfile`, and sign-out.

    The Appwrite SDK is not part of this model. Each SDK call is a request the
    glue issues and a reply the environment chooses (`Reply`): a value, or a
    thrown error carrying `error.message`. The abstract `Service` state records
    every request in order (`log`) and applies the effect a successful call
    stands for: a new account, the current session, a new profile document. */
module Appwrite {
  import opened Optional
  import opened Access

  /** The database and collection ids read from the environment at start-up. */
  datatype Config = Config(databaseId: string, profilesCollectionId: string)

  /** An account as `account.create` and `account.get` return it (`$id`, `name`, `email`). */
  datatype User = User(id: string, name: string, email: string)

  datatype Session = Session(id: string, userId: string)

  /** The fields of a profile document. */
  datatype ProfileData = ProfileData(userId: string, fullName: string, email: string)

  datatype Document = Document(id: string, data: ProfileData, permissions: seq<string>)

  /** The SDK calls the glue makes, with their arguments. */
  datatype Request =
    | CreateAccount(userId: string, email: string, password: string, name: Option<string>)
    | CreateEmailPasswordSession(email: string, password: string)
    | DeleteSession(sessionId: string)
    | GetAccount
    | CreateDocument(databaseId: string, collectionId: string, document: Document)
    | ListDocuments(databaseId: string, collectionId: string, queries: seq<string>)

  /** What an awaited SDK call gives back: a value, or a thrown error whose
      `message` is "" when it is empty or missing. */
  datatype Reply<T> = Ok(value: T) | Thrown(message: string)

  datatype Service = Service(accounts: seq<User>, session: Option<Session>, profiles: seq<Document>, log: seq<Request>)

  /** `{ success: true, ... }` or `{ success: false, error }`. */
  datatype Result<T> = Success(value: T) | Failure(error: string)

  /** What `getCurrentUserAndProfile` returns: `{ user, profile }` (the profile
      is `undefined` when the second look-up finds nothing) or
      `{ user: null, profile: null, error }`. */
  datatype Identity = Identity(user: User, profile: Option<Document>) | NoIdentity(error: string)

  /** An operation's result together with the service state it leaves. */
  datatype Step<T> = Step(result: T, service: Service)

  const CurrentSession := "current"
  const SignUpFailed := "Sign up failed"
  const SignInFailed := "Sign in failed"
  const SignOutFailed := "Sign out failed"

  /** `error.message || fallback`: the thrown message when there is one, and
      never empty when the fallback is not. */
  function ErrorText(message: string, fallback: string): (r: string)
    ensures r == message || r == fallback
    ensures message != "" ==> r == message
    ensures fallback != "" ==> r != ""
  {
    if message != "" then message else fallback
  }

  /** Issues one SDK call. */
  function Issue(s: Service, req: Request): Service {
    s.(log := s.log + [req])
  }

  /** The requests issued between `before` and `after`. */
  function NewCalls(before: Service, after: Service): seq<Request>
    requires |before.log| <= |after.log|
  {
    after.log[|before.log|..]
  }

  /** A profile document owned by `userId`, carrying the four owner permissions. */
  function OwnedProfile(documentId: string, userId: string, fullName: string, email: string): Document {
    Document(documentId, ProfileData(userId, fullName, email), OwnerPermissions(userId))
  }

  /** `signUpWithEmailPassword`: create the account, then a session with the same
      credentials, then the profile document, stopping at the first call that
      throws. `generatedId` and `documentId` are the two `ID.unique()` values.

      Success needs all three calls to succeed and adds exactly one profile,
      owned by the id the created account reports, holding the given name (or
      "") and the email. A failure adds no profile and reports the thrown
      message, or "Sign up failed" when it is empty. */
  function SignUpWithEmailPassword(
    s: Service, cfg: Config, email: string, password: string, fullName: Option<string>,
    generatedId: string, documentId: string,
    created: Reply<User>, signedIn: Reply<Session>, stored: Reply<()>): (r: Step<Result<()>>)
    ensures s.log <= r.service.log
    ensures |NewCalls(s, r.service)| == (if created.Thrown? then 1 else if signedIn.Thrown? then 2 else 3)
    ensures NewCalls(s, r.service)[0] == CreateAccount(generatedId, email, password, fullName)
    ensures |NewCalls(s, r.service)| >= 2 ==> NewCalls(s, r.service)[1] == CreateEmailPasswordSession(email, password)
    ensures |NewCalls(s, r.service)| == 3 ==>
      NewCalls(s, r.service)[2] == CreateDocument(cfg.databaseId, cfg.profilesCollectionId,
        OwnedProfile(documentId, created.value.id, fullName.GetOr(""), email))
    ensures r.result.Success? <==> created.Ok? && signedIn.Ok? && stored.Ok?
    ensures r.service.accounts == s.accounts + (if created.Ok? then [created.value] else [])
    ensures r.result.Success? ==>
      && r.service.profiles == s.profiles + [OwnedProfile(documentId, created.value.id, fullName.GetOr(""), email)]
      && r.service.session == Some(signedIn.value)
    ensures r.result.Failure? ==>
      && r.service.profiles == s.profiles
      && r.result.error != ""
      && r.result.error == ErrorText(
           if created.Thrown? then created.message else if signedIn.Thrown? then signedIn.message else stored.message,
           SignUpFailed)
  {
    var s1 := Issue(s, CreateAccount(generatedId, email, password, fullName));
    match created
    case Thrown(m) => Step(Failure(ErrorText(m, SignUpFailed)), s1)
    case Ok(user) =>
      var s2 := Issue(s1.(accounts := s1.accounts + [user]), CreateEmailPasswordSession(email, password));
      match signedIn
      case Thrown(m) => Step(Failure(ErrorText(m, SignUpFailed)), s2)
      case Ok(session) =>
        var profile := OwnedProfile(documentId, user.id, fullName.GetOr(""), email);
        var s3 := Issue(s2.(session := Some(session)), CreateDocument(cfg.databaseId, cfg.profilesCollectionId, profile));
        match stored
        case Thrown(m) => Step(Failure(ErrorText(m, SignUpFailed)), s3)
        case Ok(_) => Step(Success(()), s3.(profiles := s3.profiles + [profile]))
  }

  /** When the document call fails after the account and session calls
      succeeded, sign-up reports failure yet the new account and the new
      session stay in place; nothing is rolled back. */
  lemma SignUpLeavesSessionWhenProfileFails(
    s: Service, cfg: Config, email: string, password: string, fullName: Option<string>,
    generatedId: string, documentId: string, user: User, session: Session, message: string)
    ensures var r := SignUpWithEmailPassword(s, cfg, email, password, fullName, generatedId, documentId,
                                             Ok(user), Ok(session), Thrown(message));
      && r.result.Failure?
      && r.service.accounts == s.accounts + [user]
      && r.service.session == Some(session)
      && r.service.profiles == s.profiles
  {
  }

  /** `signInWithEmailPassword`: always deletes the current session first and
      ignores that call's failure, then creates the new session. The result
      depends only on the session call. */
  function SignInWithEmailPassword(
    s: Service, email: string, password: string, deleted: Reply<()>, created: Reply<Session>): (r: Step<Result<Session>>)
    ensures r.service.log == s.log + [DeleteSession(CurrentSession), CreateEmailPasswordSession(email, password)]
    ensures r.result.Success? <==> created.Ok?
    ensures created.Ok? ==> r.result.value == created.value && r.service.session == Some(created.value)
    ensures created.Thrown? ==>
      && r.result.error == ErrorText(created.message, SignInFailed)
      && r.service.session == (if deleted.Ok? then None else s.session)
    ensures r.service.accounts == s.accounts && r.service.profiles == s.profiles
  {
    var s1 := Issue(s, DeleteSession(CurrentSession));
    var s2 := if deleted.Ok? then s1.(session := None) else s1;
    var s3 := Issue(s2, CreateEmailPasswordSession(email, password));
    match created
    case Ok(session) => Step(Success(session), s3.(session := Some(session)))
    case Thrown(m) => Step(Failure(ErrorText(m, SignInFailed)), s3)
  }

  /** A failing delete never makes sign-in fail: two runs that differ only in the
      delete reply return the same result. */
  lemma SignInIgnoresDeleteOutcome(
    s: Service, email: string, password: string, d1: Reply<()>, d2: Reply<()>, created: Reply<Session>)
    ensures SignInWithEmailPassword(s, email, password, d1, created).result
         == SignInWithEmailPassword(s, email, password, d2, created).result
  {
  }

  /** A request creating a document was issued. */
  predicate WritesProfile(calls: seq<Request>) {
    exists k | 0 <= k < |calls| :: calls[k].CreateDocument?
  }

  /** The calls `getCurrentUserAndProfile` makes for `user` when it goes all the
      way: fetch the account, query by user id, create the owned profile from
      the account's id, name and email, query again with the same query. */
  function ReconcileCalls(cfg: Config, documentId: string, user: User): seq<Request> {
    var query := ListDocuments(cfg.databaseId, cfg.profilesCollectionId, [UserIdQuery(user.id)]);
    [ GetAccount,
      query,
      CreateDocument(cfg.databaseId, cfg.profilesCollectionId, OwnedProfile(documentId, user.id, user.name, user.email)),
      query ]
  }

  /** Only the third call of the script writes a profile, so a run writes a
      profile exactly when it gets past the first query. */
  lemma WritesProfileIffPastFirstQuery(calls: seq<Request>, cfg: Config, documentId: string, user: User)
    requires calls <= ReconcileCalls(cfg, documentId, user)
    ensures WritesProfile(calls) <==> |calls| >= 3
  {
    if |calls| >= 3 {
      assert calls[2].CreateDocument?;
    }
  }

  /** `getCurrentUserAndProfile`: fetch the account, look its profile up by
      `equal("userId", [...])`, and only when that finds no document create one
      from the account's id, name and email and look it up again.

      `documentId` is the `ID.unique()` value. An error returns the thrown
      message as it is (there is no fallback text here). */
  function GetCurrentUserAndProfile(
    s: Service, cfg: Config, documentId: string,
    fetched: Reply<User>, listed: Reply<seq<Document>>, stored: Reply<()>, relisted: Reply<seq<Document>>): (r: Step<Identity>)
    ensures s.log <= r.service.log
    ensures fetched.Thrown? ==> NewCalls(s, r.service) == [GetAccount]
    ensures fetched.Ok? ==> NewCalls(s, r.service) <= ReconcileCalls(cfg, documentId, fetched.value)
    ensures |NewCalls(s, r.service)| >= 3 <==> fetched.Ok? && listed.Ok? && listed.value == []
    ensures fetched.Ok? && listed.Ok? && listed.value != [] ==>
      r.result == Identity(fetched.value, Some(listed.value[0])) && r.service.profiles == s.profiles
    ensures fetched.Thrown? ==> r.result == NoIdentity(fetched.message)
    ensures fetched.Ok? && listed.Thrown? ==> r.result == NoIdentity(listed.message) && r.service.profiles == s.profiles
    ensures fetched.Ok? && listed.Ok? && listed.value == [] ==>
      && (stored.Thrown? ==> r.result == NoIdentity(stored.message) && r.service.profiles == s.profiles)
      && (stored.Ok? ==>
            r.service.profiles == s.profiles + [OwnedProfile(documentId, fetched.value.id, fetched.value.name, fetched.value.email)])
      && (stored.Ok? && relisted.Thrown? ==> r.result == NoIdentity(relisted.message))
      && (stored.Ok? && relisted.Ok? && relisted.value != [] ==> r.result == Identity(fetched.value, Some(relisted.value[0])))
      && (stored.Ok? && relisted.Ok? && relisted.value == [] ==> r.result == Identity(fetched.value, None))
    ensures r.result.Identity? ==> fetched.Ok? && r.result.user == fetched.value
    ensures r.service.accounts == s.accounts && r.service.session == s.session
  {
    var s1 := Issue(s, GetAccount);
    match fetched
    case Thrown(m) => Step(NoIdentity(m), s1)
    case Ok(user) =>
      var query := ListDocuments(cfg.databaseId, cfg.profilesCollectionId, [UserIdQuery(user.id)]);
      var s2 := Issue(s1, query);
      match listed
      case Thrown(m) => Step(NoIdentity(m), s2)
      case Ok(documents) =>
        if documents != [] then Step(Identity(user, Some(documents[0])), s2)
        else
          var profile := OwnedProfile(documentId, user.id, user.name, user.email);
          var s3 := Issue(s2, CreateDocument(cfg.databaseId, cfg.profilesCollectionId, profile));
          match stored
          case Thrown(m) => Step(NoIdentity(m), s3)
          case Ok(_) =>
            var s4 := Issue(s3.(profiles := s3.profiles + [profile]), query);
            match relisted
            case Thrown(m) => Step(NoIdentity(m), s4)
            case Ok(again) =>
              Step(Identity(user, if again != [] then Some(again[0]) else None), s4)
  }

  /** The calls `getCurrentUserAndProfile` makes for a fetched account are
      exactly the first two, three or four calls of the script: the account
      fetch and the first query always, the create and the second query only
      after an empty first listing, and the second query only after a create
      that succeeded. */
  lemma GetCurrentUserAndProfileCalls(
    s: Service, cfg: Config, documentId: string,
    user: User, listed: Reply<seq<Document>>, stored: Reply<()>, relisted: Reply<seq<Document>>)
    ensures var r := GetCurrentUserAndProfile(s, cfg, documentId, Ok(user), listed, stored, relisted);
      NewCalls(s, r.service) == ReconcileCalls(cfg, documentId, user)[..
        if listed.Thrown? || listed.value != [] then 2 else if stored.Thrown? then 3 else 4]
  {
  }

  /** The profiles whose `userId` field is `userId`, in store order: what an
      honest server answers to `equal("userId", [...])`. */
  function Matching(profiles: seq<Document>, userId: string): (r: seq<Document>)
    ensures forall d | d in r :: d in profiles && d.data.userId == userId
    ensures forall d | d in profiles && d.data.userId == userId :: d in r
  {
    if profiles == [] then []
    else (if profiles[0].data.userId == userId then [profiles[0]] else []) + Matching(profiles[1..], userId)
  }

  lemma {:induction false} MatchingAppend(profiles: seq<Document>, d: Document, userId: string)
    ensures Matching(profiles + [d], userId) == Matching(profiles, userId) + (if d.data.userId == userId then [d] else [])
    decreases |profiles|
  {
    if profiles == [] {
      assert [] + [d] == [d];
    } else {
      assert (profiles + [d])[1..] == profiles[1..] + [d];
      MatchingAppend(profiles[1..], d, userId);
    }
  }

  /** `getCurrentUserAndProfile` for a signed-in `user` when every call succeeds
      and each look-up returns exactly the stored profiles of that user. */
  function HonestLookup(s: Service, cfg: Config, user: User, documentId: string): Step<Identity> {
    var created := OwnedProfile(documentId, user.id, user.name, user.email);
    GetCurrentUserAndProfile(s, cfg, documentId, Ok(user), Ok(Matching(s.profiles, user.id)), Ok(()),
      Ok(Matching(s.profiles + [created], user.id)))
  }

  /** A look-up with honest replies returns a profile of the user, creating one
      only when the user has none. */
  lemma HonestLookupFindsProfile(s: Service, cfg: Config, user: User, documentId: string)
    ensures var r := HonestLookup(s, cfg, user, documentId);
      && r.result.Identity?
      && r.result.profile.Some?
      && r.result.profile.value.data.userId == user.id
      && (Matching(s.profiles, user.id) == [] ==>
            && r.service.profiles == s.profiles + [OwnedProfile(documentId, user.id, user.name, user.email)]
            && r.result.profile.value == OwnedProfile(documentId, user.id, user.name, user.email))
      && (Matching(s.profiles, user.id) != [] ==>
            && r.service.profiles == s.profiles
            && r.result.profile.value == Matching(s.profiles, user.id)[0])
  {
    var created := OwnedProfile(documentId, user.id, user.name, user.email);
    MatchingAppend(s.profiles, created, user.id);
    if Matching(s.profiles, user.id) != [] {
      assert Matching(s.profiles, user.id)[0] in Matching(s.profiles, user.id);
    }
  }

  /** A successful sign-up stores exactly one profile for the new account, and
      the next look-up (with honest replies) finds that very profile and writes
      nothing: sign-up and `getCurrentUserAndProfile` agree on what a user's
      profile is. */
  lemma SignUpThenLookupFindsProfile(
    s: Service, cfg: Config, email: string, password: string, fullName: Option<string>,
    generatedId: string, documentId: string, user: User, session: Session, lookupId: string)
    requires Matching(s.profiles, user.id) == []
    ensures var up := SignUpWithEmailPassword(s, cfg, email, password, fullName, generatedId, documentId,
                                              Ok(user), Ok(session), Ok(()));
      var profile := OwnedProfile(documentId, user.id, fullName.GetOr(""), email);
      var look := HonestLookup(up.service, cfg, user, lookupId);
      && up.result.Success?
      && Matching(up.service.profiles, user.id) == [profile]
      && look.result == Identity(user, Some(profile))
      && look.service.profiles == up.service.profiles
      && !WritesProfile(NewCalls(up.service, look.service))
  {
    var up := SignUpWithEmailPassword(s, cfg, email, password, fullName, generatedId, documentId,
                                      Ok(user), Ok(session), Ok(()));
    var profile := OwnedProfile(documentId, user.id, fullName.GetOr(""), email);
    MatchingAppend(s.profiles, profile, user.id);
    assert Matching(up.service.profiles, user.id) == [profile];
    var look := HonestLookup(up.service, cfg, user, lookupId);
    WritesProfileIffPastFirstQuery(NewCalls(up.service, look.service), cfg, lookupId, user);
  }

  /** The self-healing step is idempotent: right after a look-up, a second
      look-up creates nothing and returns the same user and profile. */
  lemma SelfHealingIsIdempotent(s: Service, cfg: Config, user: User, id1: string, id2: string)
    ensures var first := HonestLookup(s, cfg, user, id1);
      var second := HonestLookup(first.service, cfg, user, id2);
      && !WritesProfile(NewCalls(first.service, second.service))
      && second.service.profiles == first.service.profiles
      && second.result == first.result
  {
    var first := HonestLookup(s, cfg, user, id1);
    HonestLookupFindsProfile(s, cfg, user, id1);
    var created := OwnedProfile(id1, user.id, user.name, user.email);
    if Matching(s.profiles, user.id) == [] {
      MatchingAppend(s.profiles, created, user.id);
      assert Matching(first.service.profiles, user.id) == [created];
    }
    assert Matching(first.service.profiles, user.id) != [];
    var second := HonestLookup(first.service, cfg, user, id2);
    WritesProfileIffPastFirstQuery(NewCalls(first.service, second.service), cfg, id2, user);
  }

  /** `signOut`: delete the current session; success exactly when that call succeeds. */
  function SignOut(s: Service, deleted: Reply<()>): (r: Step<Result<()>>)
    ensures r.result.Success? <==> deleted.Ok?
    ensures r.service.log == s.log + [DeleteSession(CurrentSession)]
    ensures deleted.Ok? ==> r.service.session == None
    ensures deleted.Thrown? ==> r.service.session == s.session && r.result.error == ErrorText(deleted.message, SignOutFailed)
    ensures r.service.accounts == s.accounts && r.service.profiles == s.profiles
  {
    var s1 := Issue(s, DeleteSession(CurrentSession));
    match deleted
    case Ok(_) => Step(Success(()), s1.(session := None))
    case Thrown(m) => Step(Failure(ErrorText(m, SignOutFailed)), s1)
  }

  /** Session life cycle: after a successful sign-in, a successful sign-out
      leaves no session, and a failed one keeps the session sign-in created.
      Neither touches the accounts or the profiles. */
  lemma SignInThenSignOut(
    s: Service, email: string, password: string, deleted: Reply<()>, session: Session, signedOut: Reply<()>)
    ensures var a := SignInWithEmailPassword(s, email, password, deleted, Ok(session));
      var b := SignOut(a.service, signedOut);
      && b.service.log == s.log + [DeleteSession(CurrentSession), CreateEmailPasswordSession(email, password), DeleteSession(CurrentSession)]
      && (signedOut.Ok? ==> b.result.Success? && b.service.session == None)
      && (signedOut.Thrown? ==> b.result.Failure? && b.service.session == Some(session))
      && b.service.accounts == s.accounts && b.service.profiles == s.profiles
  {
  }

  /** Every failure text of sign-up, sign-in and sign-out is the thrown message
      when it is non-empty and the operation's own default otherwise, so it is
      never empty. */
  lemma FailureTextsNeverEmpty(message: string)
    ensures ErrorText(message, SignUpFailed) != ""
    ensures ErrorText(message, SignInFailed) != ""
    ensures ErrorText(message, SignOutFailed) != ""
    ensures message != "" ==> ErrorText(message, SignInFailed) == message
  {
  }
}

=== FILE: email.dfy ===
/** The email address check shared by the sign-up, sign-in and forgot-password
    screens: `/^[^\s@]+@[^\s@]+\.[^\s@]+$/.test(email)`. */
module Email {
  import opened Text

  /** One character of the class `[^\s@]`. */
  predicate IsAddressChar(c: char) {
    !IsWhitespace(c) && c != '@'
  }

  /** A match of `[^\s@]+`: a non-empty run of address characters. */
  predicate IsAddressRun(s: string) {
    |s| > 0 && forall i | 0 <= i < |s| :: IsAddressChar(s[i])
  }

  /** The '@' at `at` and the '.' at `dot` cut `s` into the three runs the
      pattern asks for; the pattern is anchored at both ends. */
  predicate IsSplit(s: string, at: int, dot: int)
    requires 0 <= at < dot < |s|
  {
    && s[at] == '@'
    && s[dot] == '.'
    && IsAddressRun(s[..at])
    && IsAddressRun(s[at + 1..dot])
    && IsAddressRun(s[dot + 1..])
  }

  /** `validateEmail`: the regular expression matches when some choice of the
      '@' and of a later '.' splits the string as the pattern describes. */
  predicate ValidateEmail(s: string)
    ensures ValidateEmail(s) ==> |s| >= 5
  {
    exists at, dot | 0 <= at < dot < |s| :: IsSplit(s, at, dot)
  }

  /** The '@' of a split is the only '@' of the string. */
  lemma SplitHasOneAt(s: string, at: int, dot: int)
    requires 0 <= at < dot < |s| && IsSplit(s, at, dot)
    ensures multiset(s)['@'] == 1
    ensures forall i | 0 <= i < |s| :: s[i] == '@' <==> i == at
  {
    assert s == s[..at] + [s[at]] + s[at + 1..];
    assert s[at + 1..] == s[at + 1..dot] + [s[dot]] + s[dot + 1..];
    assert '@' !in s[..at];
    assert '@' !in s[at + 1..dot];
    assert '@' !in s[dot + 1..];
    assert multiset(s) == multiset(s[..at]) + multiset([s[at]]) + multiset(s[at + 1..dot]) + multiset([s[dot]]) + multiset(s[dot + 1..]);
    forall i | 0 <= i < |s| && i != at
      ensures s[i] != '@'
    {
      if i < at {
        assert s[i] == s[..at][i];
      } else if i < dot {
        assert s[i] == s[at + 1..dot][i - at - 1];
      } else if i > dot {
        assert s[i] == s[dot + 1..][i - dot - 1];
      }
    }
  }

  /** An accepted address has no whitespace anywhere: every character lies in
      one of the three runs or is the '@' or the '.' between them. */
  lemma SplitHasNoWhitespace(s: string, at: int, dot: int)
    requires 0 <= at < dot < |s| && IsSplit(s, at, dot)
    ensures forall i | 0 <= i < |s| :: !IsWhitespace(s[i])
  {
    forall i | 0 <= i < |s|
      ensures !IsWhitespace(s[i])
    {
      if i < at {
        assert s[i] == s[..at][i];
      } else if at < i < dot {
        assert s[i] == s[at + 1..dot][i - at - 1];
      } else if i > dot {
        assert s[i] == s[dot + 1..][i - dot - 1];
      }
    }
  }

  /** The address check restated without the regular expression: no whitespace,
      exactly one '@' and it is not the first character, and a '.' that is
      neither right after the '@' nor the last character. Nothing forbids further
      dots, so multi-label domains are accepted. */
  predicate HasEmailShape(s: string) {
    && (forall i | 0 <= i < |s| :: !IsWhitespace(s[i]))
    && multiset(s)['@'] == 1
    && exists at, dot | 0 < at && at + 1 < dot < |s| - 1 :: s[at] == '@' && s[dot] == '.'
  }

  lemma ShapeOfValidEmail(s: string)
    requires ValidateEmail(s)
    ensures HasEmailShape(s)
  {
    var at, dot :| 0 <= at < dot < |s| && IsSplit(s, at, dot);
    SplitHasOneAt(s, at, dot);
    SplitHasNoWhitespace(s, at, dot);
    assert 0 < at && at + 1 < dot < |s| - 1 && s[at] == '@' && s[dot] == '.';
  }

  /** Outside the single '@' every character is an address character. */
  lemma OnlyOneAt(s: string, at: int)
    requires 0 <= at < |s| && s[at] == '@' && multiset(s)['@'] == 1
    requires forall i | 0 <= i < |s| :: !IsWhitespace(s[i])
    ensures forall i | 0 <= i < |s| && i != at :: IsAddressChar(s[i])
  {
    assert s == s[..at] + [s[at]] + s[at + 1..];
    assert multiset(s) == multiset(s[..at]) + multiset([s[at]]) + multiset(s[at + 1..]);
    forall i | 0 <= i < |s| && i != at
      ensures s[i] != '@'
    {
      if i < at {
        assert s[i] == s[..at][i];
        assert s[i] in multiset(s[..at]);
      } else {
        assert s[i] == s[at + 1..][i - at - 1];
        assert s[i] in multiset(s[at + 1..]);
      }
    }
  }

  lemma ValidEmailFromShape(s: string)
    requires HasEmailShape(s)
    ensures ValidateEmail(s)
  {
    var at, dot :| 0 < at && at + 1 < dot < |s| - 1 && s[at] == '@' && s[dot] == '.';
    OnlyOneAt(s, at);
    assert IsAddressRun(s[..at]);
    assert IsAddressRun(s[at + 1..dot]);
    assert IsAddressRun(s[dot + 1..]);
    assert IsSplit(s, at, dot);
  }

  /** The regular expression accepts exactly the strings of that shape. */
  lemma ValidateEmailShape(s: string)
    ensures ValidateEmail(s) <==> HasEmailShape(s)
  {
    if ValidateEmail(s) {
      ShapeOfValidEmail(s);
    }
    if HasEmailShape(s) {
      ValidEmailFromShape(s);
    }
  }

  /** Every address built as local "@" d1 "." d2 from three runs is accepted,
      and d1 may itself contain dots. */
  lemma JoinedAddressIsValid(local: string, d1: string, d2: string)
    requires IsAddressRun(local) && IsAddressRun(d1) && IsAddressRun(d2)
    ensures ValidateEmail(local + "@" + d1 + "." + d2)
  {
    var s := local + "@" + d1 + "." + d2;
    var at, dot := |local|, |local| + 1 + |d1|;
    assert s[..at] == local;
    assert s[at + 1..dot] == d1;
    assert s[dot + 1..] == d2;
    assert IsSplit(s, at, dot);
  }

  /** Every accepted address is local "@" d1 "." d2 for three runs; with
      JoinedAddressIsValid this is the pattern as a grammar. */
  lemma SplitValidAddress(s: string) returns (local: string, d1: string, d2: string)
    requires ValidateEmail(s)
    ensures s == local + "@" + d1 + "." + d2
    ensures IsAddressRun(local) && IsAddressRun(d1) && IsAddressRun(d2)
  {
    var at, dot :| 0 <= at < dot < |s| && IsSplit(s, at, dot);
    local, d1, d2 := s[..at], s[at + 1..dot], s[dot + 1..];
    assert s == s[..at] + [s[at]] + s[at + 1..dot] + [s[dot]] + s[dot + 1..];
  }

  /** A multi-label domain is accepted: the '.' of the pattern may be any dot
      after the first domain character. */
  lemma MultiLabelDomainAccepted()
    ensures ValidateEmail("ann@mail.example.com")
  {
    var s := "ann@mail.example.com";
    assert IsSplit(s, 3, 16);
  }

  /** A second '@' is rejected. */
  lemma SecondAtRejected()
    ensures !ValidateEmail("ann@b@c.com")
  {
    var s := "ann@b@c.com";
    if ValidateEmail(s) {
      var at, dot :| 0 <= at < dot < |s| && IsSplit(s, at, dot);
      SplitHasOneAt(s, at, dot);
    }
  }

  /** A space inside the local part is rejected. */
  lemma SpaceRejected()
    ensures !ValidateEmail("ann lee@b.com")
  {
    var s := "ann lee@b.com";
    if ValidateEmail(s) {
      var at, dot :| 0 <= at < dot < |s| && IsSplit(s, at, dot);
      SplitHasNoWhitespace(s, at, dot);
      assert IsWhitespace(s[3]);
    }
  }

  /** A dot right after the '@' cannot serve as the pattern's '.', and there is no other. */
  lemma DotAfterAtRejected()
    ensures !ValidateEmail("ann@.com")
  {
  }
}

=== FILE: forgot_password.dfy ===
/** The forgot-password screen as a two-state machine: the form (`emailSent`
    false) and the "Check Your Email" view (`emailSent` true). */
module ForgotPasswordScreen {
  import opened Email
  import opened Validation

  datatype ForgotScreen = ForgotScreen(email: string, emailSent: bool)

  /** `handleSendResetLink`: an invalid address is reported and nothing changes;
      a valid one moves to the sent view. The address itself is never changed. */
  function HandleSendResetLink(s: ForgotScreen): (r: (Submission, ForgotScreen))
    ensures r.1.email == s.email
    ensures !ValidateEmail(s.email) ==> r == (Rejected(InvalidEmail), s)
    ensures ValidateEmail(s.email) ==> r.0 == Proceed && r.1.emailSent
  {
    if !ValidateEmail(s.email) then (Rejected(InvalidEmail), s)
    else (Proceed, s.(emailSent := true))
  }

  /** `handleResendEmail`: back to the form, then the send handler again on the
      same address; the sent view is left exactly when the address is invalid. */
  function HandleResendEmail(s: ForgotScreen): (r: (Submission, ForgotScreen))
    ensures r.1.email == s.email
    ensures r.1.emailSent <==> ValidateEmail(s.email)
    ensures r.0 == (if ValidateEmail(s.email) then Proceed else Rejected(InvalidEmail))
  {
    HandleSendResetLink(s.(emailSent := false))
  }

  /** Typing in the address field; the field exists only on the form. */
  function EditEmail(s: ForgotScreen, email: string): (r: ForgotScreen)
    ensures r.emailSent == s.emailSent
    ensures !s.emailSent ==> r.email == email
    ensures s.emailSent ==> r == s
  {
    if s.emailSent then s else s.(email := email)
  }

  /** The user's actions on this screen. */
  datatype Event = Type(email: string) | Send | Resend

  /** One user action: Send is the form's button, Resend the sent view's button.
      Only typing changes the address, and typing never changes the view. */
  function Step(s: ForgotScreen, e: Event): (r: ForgotScreen)
    ensures !e.Type? ==> r.email == s.email
    ensures e.Type? ==> r.emailSent == s.emailSent
    ensures !s.emailSent && r.emailSent ==> e.Send? && ValidateEmail(s.email)
  {
    match e
    case Type(email) => EditEmail(s, email)
    case Send => if s.emailSent then s else HandleSendResetLink(s).1
    case Resend => if s.emailSent then HandleResendEmail(s).1 else s
  }

  /** In the atomic-submit model, the sent view always shows an address that
      passed the check. */
  predicate Consistent(s: ForgotScreen) {
    s.emailSent ==> ValidateEmail(s.email)
  }

  /** In the atomic-submit model, every action keeps the screen consistent, and
      the only way into the sent view from the form is a send of a valid address. */
  lemma StepPreservesConsistency(s: ForgotScreen, e: Event)
    requires Consistent(s)
    ensures Consistent(Step(s, e))
    ensures !s.emailSent && Step(s, e).emailSent ==> e.Send? && ValidateEmail(s.email)
  {
  }

  /** The screen state after a sequence of actions from the empty form. */
  function Run(events: seq<Event>): ForgotScreen
    decreases |events|
  {
    if events == [] then ForgotScreen("", false)
    else Step(Run(events[..|events| - 1]), events[|events| - 1])
  }

  /** In the atomic-submit model, any reachable sent view holds a valid
      address, so Resend from it comes back to the sent view. */
  lemma {:induction false} ResendStaysSent(events: seq<Event>)
    requires Run(events).emailSent
    ensures ValidateEmail(Run(events).email)
    ensures HandleResendEmail(Run(events)).1 == Run(events)
  {
    RunIsConsistent(events);
  }

  /** In the atomic-submit model, every state reachable from the empty form is consistent. */
  lemma {:induction false} RunIsConsistent(events: seq<Event>)
    ensures Consistent(Run(events))
    decreases |events|
  {
    if events != [] {
      RunIsConsistent(events[..|events| - 1]);
      StepPreservesConsistency(Run(events[..|events| - 1]), events[|events| - 1]);
    }
  }
}

=== FILE: onboarding.dfy ===
/** The onboarding carousel: a page index over a fixed list of three slides,
    the "next" control, the page indicators and the final call-to-action buttons. */
module Onboarding {

  datatype Slide = Slide(id: nat, title: string, color: string)

  /** `onboardingData` (icons and descriptions are presentation and not kept). */
  const Slides: seq<Slide> := [
    Slide(1, "Welcome to Our App Next Star AI", "#007AFF"),
    Slide(2, "Connect & Collaborate", "#34C759"),
    Slide(3, "Secure & Private", "#FF9500")
  ]

  /** `onboardingData.length`. */
  const PageCount: nat := |Slides|

  /** The carousel's state, `currentPage`; it starts at 0. */
  datatype Pager = Pager(currentPage: int)

  const Start := Pager(0)

  predicate InRange(p: Pager) {
    0 <= p.currentPage <= PageCount - 1
  }

  /** `goToNextPage`: moves one slide on unless already on the last one, in
      which case nothing changes; an in-range page stays in range. */
  function GoToNextPage(p: Pager): (r: Pager)
    ensures p.currentPage < PageCount - 1 ==> r.currentPage == p.currentPage + 1
    ensures p.currentPage >= PageCount - 1 ==> r == p
    ensures InRange(p) ==> InRange(r)
  {
    if p.currentPage < PageCount - 1 then Pager(p.currentPage + 1) else p
  }

  /** `isLastPage`: the page where the next control can no longer move on. */
  predicate IsLastPage(p: Pager)
    ensures InRange(p) ==> (IsLastPage(p) <==> GoToNextPage(p) == p)
  {
    p.currentPage == PageCount - 1
  }

  /** The carousel has three slides, so the last page is page 2. */
  lemma LastPageIsThird(p: Pager)
    ensures PageCount == 3
    ensures IsLastPage(p) <==> p.currentPage == 2
  {
  }

  /** Indicator `index` is drawn wide and opaque. */
  predicate IndicatorActive(p: Pager, index: int) {
    index == p.currentPage
  }

  /** The indicators drawn as active, out of the `PageCount` drawn; exactly the
      current page's when it is in range. */
  function ActiveIndicators(p: Pager): (r: set<int>)
    ensures InRange(p) ==> r == {p.currentPage}
    ensures !InRange(p) ==> r == {}
    ensures forall i | i in r :: 0 <= i < PageCount
  {
    set i | 0 <= i < PageCount && IndicatorActive(p, i)
  }

  /** Exactly one indicator is active on an in-range page. */
  lemma OneActiveIndicator(p: Pager)
    requires InRange(p)
    ensures |ActiveIndicators(p)| == 1
  {
  }

  /** "Get Started" and "I already have an account" are shown. */
  predicate ActionsShown(p: Pager) {
    IsLastPage(p)
  }

  /** Where the call-to-action buttons lead. */
  const SignUpRoute := "/sign-up"
  const SignInRoute := "/sign-in"

  /** The routes offered on page `p`: both on the last page, none elsewhere. */
  function OfferedRoutes(p: Pager): (r: set<string>)
    ensures r != {} <==> IsLastPage(p)
    ensures IsLastPage(p) ==> r == {SignUpRoute, SignInRoute}
  {
    if ActionsShown(p) then {SignUpRoute, SignInRoute} else {}
  }

  /** The page after `n` applications of `goToNextPage`, starting from `p`. As
      written only the inert chevron calls it; with the corrected next control
      of `NextButtonShown` these are `n` presses. */
  function Advance(p: Pager, n: nat): Pager
    decreases n
  {
    if n == 0 then p else Advance(GoToNextPage(p), n - 1)
  }

  /** From the first slide, `n` applications of `goToNextPage` reach slide
      min(n, 2), so two reach the last page and further ones stay there. */
  lemma AdvanceFromStart(n: nat)
    ensures Advance(Start, n).currentPage == if n < PageCount - 1 then n else PageCount - 1
    ensures IsLastPage(Advance(Start, n)) <==> n >= PageCount - 1
  {
    AdvanceFrom(Start, n);
  }

  lemma {:induction false} AdvanceFrom(p: Pager, n: nat)
    requires InRange(p)
    ensures Advance(p, n).currentPage ==
      if p.currentPage + n < PageCount - 1 then p.currentPage + n else PageCount - 1
    decreases n
  {
    if n > 0 {
      AdvanceFrom(GoToNextPage(p), n - 1);
    }
  }

  /** As written, the chevron is rendered inside a slide only when that slide's
      index is `onboardingData.length - 1`. */
  predicate ChevronShownAsWritten(slide: int) {
    slide == PageCount - 1
  }

  /** As written, the chevron is inert: it sits only on the last slide, and
      pressing it there runs `goToNextPage` on the last page, which changes nothing. */
  lemma ChevronInertAsWritten(p: Pager)
    requires InRange(p) && ChevronShownAsWritten(p.currentPage)
    ensures GoToNextPage(p) == p
    ensures ChevronShownAsWritten(2) && !ChevronShownAsWritten(0) && !ChevronShownAsWritten(1)
  {
  }

  /** The evidently intended condition: the next control on every slide but the last. */
  predicate NextButtonShown(slide: int) {
    0 <= slide < PageCount - 1
  }

  /** What page `p` offers to move on: the next control, or the final buttons. */
  datatype Controls = Controls(next: bool, actions: bool)

  function ControlsOn(p: Pager): (c: Controls)
    ensures InRange(p) ==> (c.next <==> !c.actions)
  {
    Controls(NextButtonShown(p.currentPage), ActionsShown(p))
  }

  /** With the intended condition every press of a shown next control moves
      exactly one slide forward, and every in-range page offers a way on. */
  lemma NextButtonAdvances(p: Pager)
    requires InRange(p) && NextButtonShown(p.currentPage)
    ensures GoToNextPage(p).currentPage == p.currentPage + 1
    ensures InRange(GoToNextPage(p))
  {
  }
}

=== FILE: optional.dfy ===
/** The optional value used wherever the source has `undefined` or "not found". */
module Optional {

  datatype Option<+T> = None | Some(value: T) {

    /** The value, or `default` when there is none (JavaScript's `x || default` on a possibly-undefined string). */
    function GetOr(default: T): T {
      match this
      case Some(v) => v
      case None => default
    }
  }
}

=== FILE: reset_password.dfy ===
/** The reset-password screen: its submit handler `handleResetPassword` and the
    two requirement lines that turn green as the user types. */
module ResetPasswordScreen {
  import opened Text
  import opened Validation

  /** The screen's state; once `passwordReset` is set the success view replaces the form. */
  datatype ResetScreen = ResetScreen(newPassword: string, confirmPassword: string, passwordReset: bool)

  /** "At least 6 characters" is shown in green; it is the submit handler's
      length guard, written out again in the screen. */
  predicate LengthRequirementMet(s: ResetScreen)
    ensures LengthRequirementMet(s) <==> ValidatePassword(s.newPassword)
  {
    Utf16Length(s.newPassword) >= 6
  }

  /** "Passwords match" is shown in green: equal fields and a non-empty new
      password. Once the length line is green it is exactly the handler's match guard. */
  predicate MatchRequirementMet(s: ResetScreen)
    ensures MatchRequirementMet(s) <==> s.newPassword == s.confirmPassword && s.newPassword != []
    ensures LengthRequirementMet(s) ==> (MatchRequirementMet(s) <==> s.newPassword == s.confirmPassword)
  {
    s.newPassword == s.confirmPassword && Utf16Length(s.newPassword) > 0
  }

  /** `handleResetPassword`: the length guard runs before the match guard; going
      ahead sets `passwordReset` and leaves the fields as they are. */
  function HandleResetPassword(s: ResetScreen): (r: (Submission, ResetScreen))
    ensures r.1.newPassword == s.newPassword && r.1.confirmPassword == s.confirmPassword
    ensures r.0.Proceed? <==> ValidatePassword(s.newPassword) && s.newPassword == s.confirmPassword
    ensures r.1.passwordReset <==> s.passwordReset || r.0.Proceed?
    ensures !ValidatePassword(s.newPassword) ==> r.0 == Rejected(PasswordTooShort)
    ensures ValidatePassword(s.newPassword) && s.newPassword != s.confirmPassword ==> r.0 == Rejected(PasswordMismatch)
  {
    if !ValidatePassword(s.newPassword) then (Rejected(PasswordTooShort), s)
    else if s.newPassword != s.confirmPassword then (Rejected(PasswordMismatch), s)
    else (Proceed, s.(passwordReset := true))
  }

  /** The guards of `handleResetPassword`, in source order. */
  function ResetChecks(s: ResetScreen): seq<Check> {
    [ Check(ValidatePassword(s.newPassword), PasswordTooShort),
      Check(s.newPassword == s.confirmPassword, PasswordMismatch) ]
  }

  /** The handler is the first-failure decision over its guards in source order. */
  lemma HandleResetIsFirstFailure(s: ResetScreen)
    ensures HandleResetPassword(s).0 == FirstFailure(ResetChecks(s))
  {
    var c := ResetChecks(s);
    FirstFailureCons(c);
    FirstFailureCons(c[1..]);
    FirstFailureCons(c[2..]);
  }

  /** Submitting goes ahead exactly when both requirement lines are green, so
      the lines never show green while the button would still refuse. */
  lemma ResetProceedsIffRequirementsMet(s: ResetScreen)
    ensures HandleResetPassword(s).0.Proceed? <==> LengthRequirementMet(s) && MatchRequirementMet(s)
  {
  }

  /** In the atomic-submit model, the success view is reached from the form
      only with a long enough, confirmed new password. */
  lemma ResetOnlyWhenValid(s: ResetScreen)
    requires !s.passwordReset && HandleResetPassword(s).1.passwordReset
    ensures ValidatePassword(s.newPassword) && s.newPassword == s.confirmPassword
  {
  }

  /** Two equal passwords shorter than six code units get the length message:
      the length guard runs first, so matching does not help a short password. */
  lemma ShortMatchingPasswordGetsLengthMessage(p: string)
    requires Utf16Length(p) < 6
    ensures HandleResetPassword(ResetScreen(p, p, false)).0 == Rejected(PasswordTooShort)
  {
  }
}

=== FILE: sign_in.dfy ===
/** The sign-in screen's submit handler `handleSignIn`. */
module SignInScreen {
  import opened Text
  import opened Email
  import opened Validation

  datatype SignInForm = SignInForm(email: string, password: string)

  /** The guards of `handleSignIn`, in order: there is no name and no confirmation guard. */
  function SignInChecks(f: SignInForm): seq<Check> {
    [ Check(ValidateEmail(f.email), InvalidEmail),
      Check(ValidatePassword(f.password), PasswordTooShort) ]
  }

  /** `handleSignIn`: the email first, then `password.length < 6`. */
  function HandleSignIn(f: SignInForm): (r: Submission)
    ensures r.Proceed? <==> ValidateEmail(f.email) && ValidatePassword(f.password)
    ensures !ValidateEmail(f.email) ==> r == Rejected(InvalidEmail)
    ensures ValidateEmail(f.email) && !ValidatePassword(f.password) ==> r == Rejected(PasswordTooShort)
  {
    if !ValidateEmail(f.email) then Rejected(InvalidEmail)
    else if Utf16Length(f.password) < MinPasswordLength then Rejected(PasswordTooShort)
    else Proceed
  }

  /** The handler is the first-failure decision over its guards in source order. */
  lemma HandleSignInIsFirstFailure(f: SignInForm)
    ensures HandleSignIn(f) == FirstFailure(SignInChecks(f))
  {
    var c := SignInChecks(f);
    FirstFailureCons(c);
    FirstFailureCons(c[1..]);
    FirstFailureCons(c[2..]);
  }
}

=== FILE: sign_up.dfy ===
/** The sign-up screen's submit handler `handleSignUp`. */
module SignUpScreen {
  import opened Text
  import opened Email
  import opened Validation

  datatype SignUpForm = SignUpForm(fullName: string, email: string, password: string, confirmPassword: string)

  /** The guards of `handleSignUp`, in the order the handler runs them. */
  function SignUpChecks(f: SignUpForm): seq<Check> {
    [ Check(!IsBlank(f.fullName), NameRequired),
      Check(ValidateEmail(f.email), InvalidEmail),
      Check(ValidatePassword(f.password), PasswordTooShort),
      Check(f.password == f.confirmPassword, PasswordMismatch) ]
  }

  /** `handleSignUp`: name, then email, then password length, then confirmation.
      Submission goes ahead exactly when all four hold; a blank name is reported
      whatever the other fields hold. */
  function HandleSignUp(f: SignUpForm): (r: Submission)
    ensures r.Proceed? <==>
      !IsBlank(f.fullName) && ValidateEmail(f.email) && ValidatePassword(f.password) && f.password == f.confirmPassword
    ensures IsBlank(f.fullName) ==> r == Rejected(NameRequired)
    ensures r.Rejected? ==> r.message in {NameRequired, InvalidEmail, PasswordTooShort, PasswordMismatch}
  {
    if IsBlank(f.fullName) then Rejected(NameRequired)
    else if !ValidateEmail(f.email) then Rejected(InvalidEmail)
    else if !ValidatePassword(f.password) then Rejected(PasswordTooShort)
    else if f.password != f.confirmPassword then Rejected(PasswordMismatch)
    else Proceed
  }

  /** The handler is the first-failure decision over its guards in source order. */
  lemma HandleSignUpIsFirstFailure(f: SignUpForm)
    ensures HandleSignUp(f) == FirstFailure(SignUpChecks(f))
  {
    var c := SignUpChecks(f);
    FirstFailureCons(c);
    FirstFailureCons(c[1..]);
    FirstFailureCons(c[2..]);
    FirstFailureCons(c[3..]);
    FirstFailureCons(c[4..]);
  }

  /** A name made only of whitespace counts as missing, because `trim` removes all of it. */
  lemma WhitespaceNameRejected(f: SignUpForm)
    requires AllWhitespace(f.fullName)
    ensures HandleSignUp(f) == Rejected(NameRequired)
  {
    BlankIffAllWhitespace(f.fullName);
  }

  /** With a real name, a valid email and a long enough password, matching
      fields proceed and differing ones get the mismatch message. */
  lemma ConfirmationDecidesLast(f: SignUpForm)
    requires !IsBlank(f.fullName) && ValidateEmail(f.email) && ValidatePassword(f.password)
    ensures HandleSignUp(f) == (if f.password == f.confirmPassword then Proceed else Rejected(PasswordMismatch))
  {
  }
}

=== FILE: text.dfy ===
/** The ECMAScript string notions the auth screens rely on: the `\s` character
    class, `String.prototype.trim`, and `String.prototype.length`. */
module Text {

  /** The characters matched by the regular-expression class `\s` and removed by
      `trim`: the WhiteSpace and LineTerminator code points of ECMA-262
      (tab, line tabulation, form feed, no-break space, byte order mark, every
      space separator of general category Zs as one Unicode version lists them,
      line feed, carriage return, line and paragraph separator). */
  predicate IsWhitespace(c: char)
    ensures IsWhitespace(c) ==> c != '@' && c != '.' && !IsSupplementary(c)
  {
    var n := c as int;
    n == 0x09 || n == 0x0A || n == 0x0B || n == 0x0C || n == 0x0D
    || n == 0x20 || n == 0xA0 || n == 0x1680
    || (0x2000 <= n <= 0x200A)
    || n == 0x2028 || n == 0x2029 || n == 0x202F || n == 0x205F
    || n == 0x3000 || n == 0xFEFF
  }

  predicate AllWhitespace(s: string) {
    forall i | 0 <= i < |s| :: IsWhitespace(s[i])
  }

  /** Drops leading whitespace: what remains is a suffix of `s` that does not
      start with whitespace, and everything dropped was whitespace. */
  function TrimStart(s: string): (r: string)
    ensures |r| <= |s| && r == s[|s| - |r|..]
    ensures AllWhitespace(s[..|s| - |r|])
    ensures r == [] || !IsWhitespace(r[0])
  {
    if s != [] && IsWhitespace(s[0]) then
      var r := TrimStart(s[1..]);
      assert s[..|s| - |r|] == [s[0]] + s[1..][..|s[1..]| - |r|];
      r
    else
      s
  }

  /** Drops trailing whitespace: what remains is a prefix of `s` that does not
      end with whitespace, and everything dropped was whitespace. */
  function TrimEnd(s: string): (r: string)
    ensures |r| <= |s| && r == s[..|r|]
    ensures AllWhitespace(s[|r|..])
    ensures r == [] || !IsWhitespace(r[|r| - 1])
  {
    if s != [] && IsWhitespace(s[|s| - 1]) then
      var r := TrimEnd(s[..|s| - 1]);
      assert s[|r|..] == s[..|s| - 1][|r|..] + [s[|s| - 1]];
      r
    else
      s
  }

  /** `s.trim()`: no longer than `s`, and neither starting nor ending with whitespace. */
  function Trim(s: string): (r: string)
    ensures |r| <= |s|
    ensures r == [] || (!IsWhitespace(r[0]) && !IsWhitespace(r[|r| - 1]))
  {
    TrimEnd(TrimStart(s))
  }

  /** `s.trim()` is the slice of `s` left after dropping whitespace on both sides:
      it starts at the first non-whitespace character, and only whitespace lies
      before and after it. */
  lemma TrimIsMiddleSlice(s: string)
    ensures var k := |s| - |TrimStart(s)|;
      && k + |Trim(s)| <= |s|
      && Trim(s) == s[k..k + |Trim(s)|]
      && AllWhitespace(s[..k])
      && AllWhitespace(s[k + |Trim(s)|..])
  {
    var t := TrimStart(s);
    var r := TrimEnd(t);
    var k := |s| - |t|;
    assert t[|r|..] == s[k + |r|..];
  }

  /** `!s.trim()`: the trimmed string is the empty string, which JavaScript
      treats as false. It is already decided by the leading whitespace alone. */
  predicate IsBlank(s: string)
    ensures IsBlank(s) <==> TrimStart(s) == []
  {
    Trim(s) == []
  }

  /** A string is blank exactly when every character of it is whitespace. */
  lemma BlankIffAllWhitespace(s: string)
    ensures IsBlank(s) <==> AllWhitespace(s)
  {
    var t := TrimStart(s);
    if IsBlank(s) {
      assert t[|TrimEnd(t)|..] == t;
      assert t == [];
      assert s[..|s| - |t|] == s;
    }
  }

  /** A code point outside the Basic Multilingual Plane, stored as a surrogate pair in UTF-16. */
  predicate IsSupplementary(c: char) {
    c as int >= 0x1_0000
  }

  /** `s.length`: the number of UTF-16 code units, which counts a supplementary
      code point twice. It equals the number of characters exactly when the
      string has no supplementary code point. */
  function Utf16Length(s: string): (n: nat)
    ensures |s| <= n <= 2 * |s|
    ensures n == |s| <==> forall i | 0 <= i < |s| :: !IsSupplementary(s[i])
  {
    if s == [] then 0
    else
      var rest := Utf16Length(s[1..]);
      assert forall i | 1 <= i < |s| :: s[i] == s[1..][i - 1];
      (if IsSupplementary(s[0]) then 2 else 1) + rest
  }
}

=== FILE: validation.dfy ===
/** What the auth screens share: the password rule, the alert texts, and the
    "first failing check wins" decision that every submit handler follows. */
module Validation {
  import opened Text

  const MinPasswordLength: nat := 6

  const NameRequired := "Please enter your full name"
  const InvalidEmail := "Please enter a valid email address"
  const PasswordTooShort := "Password must be at least 6 characters long"
  const PasswordMismatch := "Passwords do not match"

  /** `validatePassword`: `password.length >= 6`, where `length` counts UTF-16 code units. */
  predicate ValidatePassword(p: string)
    ensures |p| >= MinPasswordLength ==> ValidatePassword(p)
    ensures ValidatePassword(p) ==> 2 * |p| >= MinPasswordLength
  {
    Utf16Length(p) >= MinPasswordLength
  }

  /** Six characters always pass; on text without supplementary code points
      (no emoji and the like) the rule is exactly "at least six characters". */
  lemma ValidatePasswordByCharacters(p: string)
    ensures |p| >= MinPasswordLength ==> ValidatePassword(p)
    ensures (forall i | 0 <= i < |p| :: !IsSupplementary(p[i])) ==> (ValidatePassword(p) <==> |p| >= MinPasswordLength)
  {
  }

  /** Three emoji are six UTF-16 code units, so they meet the minimum length. */
  lemma ThreeEmojiMeetMinimum()
    ensures |"\U{1F600}\U{1F600}\U{1F600}"| == 3
    ensures ValidatePassword("\U{1F600}\U{1F600}\U{1F600}")
  {
    assert IsSupplementary('\U{1F600}');
  }

  /** What a submit handler decides: show an alert with `message` and stop, or go ahead
      (set the loading flag and, once the simulated call finishes, move on). */
  datatype Submission = Rejected(message: string) | Proceed

  /** One `if (...) { Alert.alert('Error', message); return; }` guard of a handler. */
  datatype Check = Check(passes: bool, message: string)

  /** The index of the first check that fails, or `|checks|` when all pass. */
  function FirstFailingIndex(checks: seq<Check>): (k: nat)
    ensures k <= |checks|
    ensures forall j | 0 <= j < k :: checks[j].passes
    ensures k < |checks| ==> !checks[k].passes
  {
    if checks == [] || !checks[0].passes then 0
    else 1 + FirstFailingIndex(checks[1..])
  }

  /** The first failing index is the only index with nothing failing before it
      and a failure (or the end of the chain) at it. */
  lemma {:induction false} FirstFailingIndexUnique(checks: seq<Check>, k: nat)
    requires k <= |checks|
    requires forall j | 0 <= j < k :: checks[j].passes
    requires k < |checks| ==> !checks[k].passes
    ensures FirstFailingIndex(checks) == k
    decreases k
  {
    if k > 0 {
      assert checks[0].passes;
      FirstFailingIndexUnique(checks[1..], k - 1);
    }
  }

  /** Check `k` fails and every check before it passes. */
  predicate FailsFirstAt(checks: seq<Check>, k: int)
    requires 0 <= k < |checks|
  {
    !checks[k].passes && forall j | 0 <= j < k :: checks[j].passes
  }

  /** The reference decision for a chain of guards run in order: the message of
      the first failing guard, or going ahead when none fails. */
  function FirstFailure(checks: seq<Check>): (r: Submission)
    ensures r.Proceed? <==> forall k | 0 <= k < |checks| :: checks[k].passes
    ensures r.Rejected? ==> exists k | 0 <= k < |checks| :: FailsFirstAt(checks, k) && r.message == checks[k].message
  {
    var k := FirstFailingIndex(checks);
    if k == |checks| then Proceed else Rejected(checks[k].message)
  }

  /** Running a chain is running its first guard and, if that passes, the rest:
      the reference decision is exactly a chain of early returns. */
  lemma FirstFailureCons(checks: seq<Check>)
    ensures checks == [] ==> FirstFailure(checks) == Proceed
    ensures checks != [] ==>
      FirstFailure(checks) == if !checks[0].passes then Rejected(checks[0].message) else FirstFailure(checks[1..])
  {
    if checks != [] && checks[0].passes {
      var k := FirstFailingIndex(checks[1..]);
      FirstFailingIndexUnique(checks, k + 1);
    }
  }
}
